=== FILE: README.md ===
# computational-graph in Dafny

A model of the computation engine of `formiat/computational-graph`: a
directed acyclic graph of scalar nodes (inputs, `+`, `*`, `sin`, `powf`)
that evaluates lazily, keeps each operator node's result in a memo slot, and
on `set` of an input empties the memo slot of every node downstream of it,
following the `dependents` back-edges that the constructors register.

The model keeps the nodes in an arena, `Graph<V> = seq<Node<V>>`. A node
refers to its operands by index. A node can only be built from nodes that
already exist, so operands always have smaller indices than their readers,
and dependents always have larger ones. Every operation is a pure function
that returns the new graph. `compute` returns the value together with the
graph whose memo slots it filled. The scalar type is the type parameter `V`,
and its four operators are an `Ops<V>` record of uninterpreted functions.

Files (one module each):

- `nodes.dfy` — `Nodes`: the node variants and the per-node accessors
  (`get_cached_value`, `save_to_cache`, the slot-emptying part of
  `clear_cache`, `add_dependent`).
- `shape.dfy` — `Shape`: the graph's edges as index lists. It defines
  well-formedness, meaning operands point backward and each dependents list
  holds exactly the registrations the constructors made. It proves that
  reaching `j` along dependents edges from `i` is the same as `j` reading
  `i` through operands.
- `arena.dfy` — `Arena`: the graph, its edge projections, and the reference
  notions. `Fresh` evaluates a node from scratch and ignores every slot.
  `Consistent` holds when every answer a slot would give equals `Fresh`.
- `construction.dfy` — `Construction`: `create_input`, `create_add`,
  `create_mul`, `create_sin`, `create_pow`.
- `evaluation.dfy` — `Evaluation`: `compute` and the `add`/`mul`/`sin`/`pow`
  helpers.
- `invalidation.dfy` — `Invalidation`: `clear_cache`, and `set` as a plain write (`Write`) followed by `clear_cache`.
- `session.dfy` — `Session`: a client's sequence of calls, run against the
  caching graph and against a reference that never caches (the variant the
  source describes with "to disable cache comment this line"). The two
  return the same values.

## Model

| member | source | states |
|---|---|---|
| Nodes.GetCachedValue | src/computational_graph.rs:164-172 | An Input always answers, with its own value (the contract states this half; an operator node answering with its memo slot is the transparent body, which the other members' contracts rely on) |
| Nodes.SaveToCache | src/computational_graph.rs:174-182 | After saving `v`, an operator node answers `v`; an Input still answers its own value (saving is a no-op there); operands, kind and dependents are unchanged |
| Nodes.Cleared | src/computational_graph.rs:141-147 | After clearing, an operator node no longer answers; an Input keeps answering its value; operands, kind and dependents are unchanged |
| Nodes.AddDependent | src/computational_graph.rs:133-138 | The dependents list gains the new index at its end; the node's wiring and its answer are unchanged |
| Nodes.WithDependents | src/computational_graph.rs:154-162 | The dependents list every variant carries can be replaced without touching the node's wiring, operands or answer |
| Construction.Register | src/computational_graph.rs:56-57 | Registering a new node with an operand list appends its index to each operand's dependents once per operand slot naming it, and changes nothing else |
| Construction.Attach | src/computational_graph.rs:47-60 | The new node takes the next index; each older node keeps its wiring and slot, and its dependents grow by the new index once per operand slot naming it; the graph stays well-formed (exact dependents lists, operands older) |
| Construction.CreateInput | src/computational_graph.rs:38-45 | The graph gains one Input with value `x` and no dependents, at the next index; no other node changes |
| Construction.CreateAdd | src/computational_graph.rs:47-60 | The new node is `Add(a, b)` with an empty slot and no dependents; `a` and `b` gain the new index (twice when `a` = `b`); every other node is untouched; the graph stays well-formed |
| Construction.CreateMul | src/computational_graph.rs:62-75 | As for `add`, with a `Mul` node |
| Construction.CreateSin | src/computational_graph.rs:77-88 | The new node is `Sin` of `a` with an empty slot; only `a`'s dependents change, gaining the new index once |
| Construction.CreatePow | src/computational_graph.rs:90-103 | As for `add`, with a `Pow` node |
| Construction.AttachKeepsConsistent | src/computational_graph.rs:47-103 | Building a node keeps every memo slot truthful and changes no older node's value |
| Evaluation.Store | src/computational_graph.rs:115-118 | A miss remembers the computed value: the node then answers it, and no other node changes |
| Evaluation.Unary | src/computational_graph.rs:192-194 | Evaluating the operand of `sin` only fills slots (answers already given stay), and leaves untouched every node newer than the operand and every node the operand does not read; afterwards the operand answers from its slot |
| Evaluation.Binary | src/computational_graph.rs:184-198 | The `add`/`mul`/`pow` helpers evaluate `a`, then `b`, only filling slots, and leave untouched every node newer than both operands and every node neither operand reads; afterwards both operands answer from their slots |
| Evaluation.Operate | src/computational_graph.rs:107-113 | The miss path of `compute` only fills slots; the node itself, every newer node, and every node it does not read are untouched while its operands are evaluated |
| Evaluation.Compute | src/computational_graph.rs:105-120 | An Input returns its value and writes nothing; on a hit the slot's value is returned and the graph is unchanged; otherwise the node's slot ends up answering the returned value; slots that answered keep their answers; edges are unchanged; newer nodes, and every node that node `i` does not read, are untouched |
| Evaluation.OperateMemo | src/computational_graph.rs:107-118 | After the miss path, every operand of the node answers from its slot |
| Evaluation.ComputeMemoisesOperands | src/computational_graph.rs:105-118 | A miss remembers the values of the operands it evaluated, not only its own: each operand answers from its slot afterwards, so a shared operand reached again is a hit |
| Evaluation.StoreKeepsConsistent | src/computational_graph.rs:115-116 | Remembering the from-scratch value keeps every slot truthful |
| Evaluation.UnaryIsFresh | src/computational_graph.rs:192-194 | `sin` yields the operator applied to the operand's from-scratch value |
| Evaluation.BinaryIsFresh | src/computational_graph.rs:184-198 | `add`, `mul` and `pow` yield the operator applied to both operands' from-scratch values |
| Evaluation.OperateIsFresh | src/computational_graph.rs:107-113 | The miss path yields an Input's value or the operator on the operands' from-scratch values, keeping every slot truthful |
| Evaluation.ComputeIsFresh | src/computational_graph.rs:105-120 | On a graph whose slots are truthful, `compute` returns the from-scratch value and leaves every slot truthful |
| Evaluation.ComputeTwice | src/computational_graph.rs:105-106 | A second `compute` of the same node returns the same value and leaves the graph as the first call did |
| Invalidation.ClearCache | src/computational_graph.rs:140-152 | Exactly the nodes reached from `i` along dependents edges have their slots emptied; all other nodes, and all edges, are unchanged |
| Invalidation.ClearEach | src/computational_graph.rs:149-151 | The loop over a dependents list empties exactly the slots of nodes reached from some entry of the list |
| Invalidation.Write | src/computational_graph.rs:122-127 | The store of `set`: the Input gets the new value and keeps its dependents, its wiring changes in the value only, and every other node and all edges are unchanged |
| Invalidation.Set | src/computational_graph.rs:122-131 | The Input gets the new value and keeps its dependents; every node that reads it, directly or indirectly, has its slot emptied; every other node is unchanged; edges are unchanged |
| Invalidation.SetKeepsConsistent | src/computational_graph.rs:122-131 | After `set`, every slot that still answers is truthful for the new input value |
| Invalidation.SetIdempotent | src/computational_graph.rs:122-127 | Setting an Input to the same value twice leaves the graph as setting it once |
| Shape.ReachesIffReadsFrom | src/computational_graph.rs:149-151 | In a well-formed graph, following dependents edges from `i` reaches exactly the nodes that read `i` through operands |
| Shape.WfAppend | src/computational_graph.rs:54-57 | Appending a node whose operands are older, and registering it with them, keeps the dependents lists exact |
| Arena.FreshAgrees | src/computational_graph.rs:107-113 | A node's from-scratch value depends only on the wiring of the nodes it reads |
| Session.Step | src/computational_graph.rs:38-131 | One call keeps the graph well-formed, and the graph only grows: nodes keep their kind and operands, and dependents lists are only appended to. Constructors go through the `create_*` functions and add exactly the new node's wiring, `set` rewires only the Input's value, and `compute` rewires nothing |
| Session.Construct | src/computational_graph.rs:38-103 | Each constructor call (`create_input`, `create_add`, `create_mul`, `create_sin`, `create_pow`) attaches exactly the node the call builds, whose operands are older nodes |
| Session.Run | src/computational_graph.rs:38-131 | Any session of calls keeps the graph well-formed, and the graph only grows; it carries out at most all calls, and `panicked` is set exactly when it carries out fewer than all |
| Session.RunStops | src/computational_graph.rs:122-131 | A run that panics stops on a call that the graph it has reached refuses (a `set` of a non-Input, or a call naming no node) |
| Session.RunPrefix | src/computational_graph.rs:38-131 | The calls a run carries out are a prefix of the session: replaying just them observes the same values and leaves the same graph, without a panic |
| Session.RunStopsOnRefused | src/computational_graph.rs:122-131 | A run that panics does so at the first refused call: after replaying the calls it carried out, the next call is refused |
| Session.StepMatchesReference | src/computational_graph.rs:105-131 | One call on a graph with truthful slots yields the same value as the cache-free reference; the caching graph stays truthful and differs from the reference only in memo slots |
| Session.RunMatchesReference | src/computational_graph.rs:105-131 | From truthful slots, a session sees exactly the values the cache-free reference computes, carries out the same number of calls and panics exactly when the reference does; the two final graphs differ in memo slots only, and the caching one's slots are still truthful |
| Session.RunFromEmpty | src/computational_graph.rs:38-131 | From an empty graph, every session sees the values of cache-free evaluation and stops after the same number of calls, with the same `panicked` flag |

## Left out

- Sharing through `Rc<RefCell<…>>` is replaced by arena indices. An index that names no node has no counterpart in the system, because a reference always names a node. `Session.Allowed` refuses such a call, and `Session.Run` stops there, just as it does for a `set` on a non-Input.
- Dynamic borrow checks of `RefCell` are not modelled. These operations never hold a mutable borrow while another borrow of the same cell is alive.
- `f32` arithmetic (`+`, `*`, `sin`, `powf`, NaN, rounding) is abstract. The operators are uninterpreted functions, so every property holds for any operators.
- The panic of `set` on a non-Input is a precondition of `Invalidation.Set`. In a session it is a stop with `panicked` set.
- The derived `Debug` and `Clone` are left out. A cloned node shares its operands but is never registered in their dependents lists, so it is not a node of the arena.
- `get_dependents` has no member of its own. Every variant carries a `dependents` field, so reading it is the field access. Replacing it is `Nodes.WithDependents`.
- Cost is not modelled. `clear_cache` visits a node once per path that reaches it, but the model states only which slots end up empty. Call counts of `compute` are not modelled either.
- The operand of `Sin` is the field `a`, not `x`, because the Input's `x` is its value.
- The demonstration driver `src/main.rs` is not part of this model: its console output, its `round` helper and its numeric assertions depend on IEEE-754 results.

=== FILE: arena.dfy ===
/**
 * The graph as an arena of nodes addressed by index, its well-formedness,
 * and the two reference notions every operation is measured against:
 * cache-free evaluation (`Fresh`) and cache consistency (`Consistent`).
 */
module Arena {
  import opened Nodes
  import opened Shape

  type Graph<V> = seq<Node<V>>

  /** The operand lists of all nodes. */
  function OperandLists<V>(g: Graph<V>): Edges {
    seq(|g|, j requires 0 <= j < |g| => Operands(g[j]))
  }

  /** The dependents lists of all nodes. */
  function DependentLists<V>(g: Graph<V>): Edges {
    seq(|g|, j requires 0 <= j < |g| => g[j].dependents)
  }

  /** The wiring of every node: the graph with its slots emptied and its back-edges dropped. */
  function Wirings<V>(g: Graph<V>): (w: Graph<V>)
    ensures |w| == |g|
  {
    seq(|g|, j requires 0 <= j < |g| => Wiring(g[j]))
  }

  /**
   * Operands are older than the nodes that read them (so the operand graph
   * is acyclic), and each dependents list holds exactly the registrations
   * made by the constructors of the newer nodes.
   */
  ghost predicate WellFormed<V>(g: Graph<V>) {
    Wf(OperandLists(g), DependentLists(g))
  }

  /** `h` differs from `g` in memo slots only. */
  ghost predicate SameWiring<V>(g: Graph<V>, h: Graph<V>) {
    && |g| == |h|
    && forall j :: 0 <= j < |g| ==> Wiring(g[j]) == Wiring(h[j]) && g[j].dependents == h[j].dependents
  }

  /** Graphs that differ in memo slots only have the same edges. */
  lemma SameWiringSameEdges<V>(g: Graph<V>, h: Graph<V>)
    requires SameWiring(g, h)
    ensures OperandLists(g) == OperandLists(h) && DependentLists(g) == DependentLists(h)
    ensures WellFormed(g) <==> WellFormed(h)
  {
    assert forall j :: 0 <= j < |g| ==> Operands(g[j]) == Operands(Wiring(g[j])) == Operands(h[j]);
  }

  /** Every operand of node i is an older node. */
  lemma OperandsPrecede<V>(g: Graph<V>, i: nat)
    requires PointBackward(OperandLists(g)) && i < |g|
    ensures forall o :: o in Operands(g[i]) ==> o < i
    ensures !g[i].Input? ==> g[i].a < i
    ensures g[i].Add? || g[i].Mul? || g[i].Pow? ==> g[i].b < i
  {
    forall o | o in Operands(g[i])
      ensures o < i
    {
      assert OperandLists(g)[i] == Operands(g[i]);
      var m :| 0 <= m < |OperandLists(g)[i]| && OperandLists(g)[i][m] == o;
    }
    if !g[i].Input? {
      assert g[i].a in Operands(g[i]);
    }
    if g[i].Add? || g[i].Mul? || g[i].Pow? {
      assert g[i].b in Operands(g[i]);
    }
  }

  /**
   * The value of node i computed from scratch, ignoring every memo slot:
   * what `compute` would return with the cache disabled.
   */
  function Fresh<V>(ops: Ops<V>, g: Graph<V>, i: nat): V
    requires PointBackward(OperandLists(g)) && i < |g|
    decreases i
  {
    OperandsPrecede(g, i);
    match g[i]
    case Input(x, _) => x
    case Sin(a, _, _) => ops.sin(Fresh(ops, g, a))
    case Add(a, b, _, _) => ops.add(Fresh(ops, g, a), Fresh(ops, g, b))
    case Mul(a, b, _, _) => ops.mul(Fresh(ops, g, a), Fresh(ops, g, b))
    case Pow(a, b, _, _) => ops.pow(Fresh(ops, g, a), Fresh(ops, g, b))
  }

  /**
   * Every value a node would answer from its slot (an Input's value, an
   * operator node's filled cache) is the value of evaluating it from scratch.
   */
  ghost predicate Consistent<V>(ops: Ops<V>, g: Graph<V>) {
    && PointBackward(OperandLists(g))
    && forall j :: 0 <= j < |g| && GetCachedValue(g[j]).Some? ==> GetCachedValue(g[j]).value == Fresh(ops, g, j)
  }

  /**
   * Fresh evaluation of j only looks at the wiring of the nodes j reads:
   * memo slots, back-edges and every other node may differ.
   */
  lemma {:induction false} FreshAgrees<V>(ops: Ops<V>, g: Graph<V>, h: Graph<V>, j: nat)
    requires PointBackward(OperandLists(g)) && PointBackward(OperandLists(h)) && j < |g| <= |h|
    requires forall k :: 0 <= k < |g| && ReadsFrom(OperandLists(g), j, k) ==> Wiring(h[k]) == Wiring(g[k])
    ensures Fresh(ops, h, j) == Fresh(ops, g, j)
    decreases j
  {
    var w := OperandLists(g);
    assert ReadsFrom(w, j, j);
    assert w[j] == Operands(g[j]);
    OperandsPrecede(g, j);
    forall o | o in Operands(g[j])
      ensures forall k :: 0 <= k < |g| && ReadsFrom(w, o, k) ==> Wiring(h[k]) == Wiring(g[k])
    {
      var m :| 0 <= m < |w[j]| && w[j][m] == o;
      forall k | 0 <= k < |g| && ReadsFrom(w, o, k)
        ensures ReadsFrom(w, j, k)
      {
        assert ReadsFrom(w, w[j][m], k);
      }
    }
    match g[j]
    case Input(_, _) =>
    case Sin(a, _, _) =>
      assert a in Operands(g[j]);
      FreshAgrees(ops, g, h, a);
    case Add(a, b, _, _) =>
      assert a in Operands(g[j]) && b in Operands(g[j]);
      FreshAgrees(ops, g, h, a);
      FreshAgrees(ops, g, h, b);
    case Mul(a, b, _, _) =>
      assert a in Operands(g[j]) && b in Operands(g[j]);
      FreshAgrees(ops, g, h, a);
      FreshAgrees(ops, g, h, b);
    case Pow(a, b, _, _) =>
      assert a in Operands(g[j]) && b in Operands(g[j]);
      FreshAgrees(ops, g, h, a);
      FreshAgrees(ops, g, h, b);
  }

  /** Graphs that differ in memo slots only evaluate alike from scratch. */
  lemma FreshSameWiring<V>(ops: Ops<V>, g: Graph<V>, h: Graph<V>)
    requires SameWiring(g, h) && PointBackward(OperandLists(g))
    ensures PointBackward(OperandLists(h))
    ensures forall j :: 0 <= j < |g| ==> Fresh(ops, h, j) == Fresh(ops, g, j)
  {
    SameWiringSameEdges(g, h);
    forall j | 0 <= j < |g|
      ensures Fresh(ops, h, j) == Fresh(ops, g, j)
    {
      FreshAgrees(ops, g, h, j);
    }
  }
}

=== FILE: construction.dfy ===
/**
 * The `create_*` constructors: a new node goes at the end of the arena
 * with an empty memo slot and no dependents, and registers itself with
 * each of its operands by appending its index to their dependents lists.
 */
module Construction {
  import opened Nodes
  import opened Shape
  import opened Arena

  /**
   * `add_dependent` for every operand slot in `os`, in order: node `d` is
   * appended to the list of each, once per slot.
   */
  function Register<V>(g: Graph<V>, os: seq<nat>, d: nat): (r: Graph<V>)
    requires forall k :: 0 <= k < |os| ==> os[k] < |g|
    ensures |r| == |g|
    ensures forall j :: 0 <= j < |g| ==>
      r[j] == WithDependents(g[j], g[j].dependents + Repeat(d, multiset(os)[j]))
    decreases |os|
  {
    if os == [] then
      g
    else
      var g1 := g[os[0] := AddDependent(g[os[0]], d)];
      var r := Register(g1, os[1..], d);
      forall j | 0 <= j < |g|
        ensures r[j] == WithDependents(g[j], g[j].dependents + Repeat(d, multiset(os)[j]))
      {
        RegisterStep(g[j], os, d, j);
      }
      r
  }

  /** One `add_dependent` followed by the rest is the same as all slots at once. */
  lemma RegisterStep<V>(n: Node<V>, os: seq<nat>, d: nat, j: nat)
    requires os != []
    ensures var n1 := if j == os[0] then AddDependent(n, d) else n;
      WithDependents(n1, n1.dependents + Repeat(d, multiset(os[1..])[j]))
        == WithDependents(n, n.dependents + Repeat(d, multiset(os)[j]))
  {
    var k := multiset(os[1..])[j];
    CountFirst(os, j);
    if j == os[0] {
      var n1 := AddDependent(n, d);
      calc {
        n1.dependents + Repeat(d, k);
        (n.dependents + [d]) + Repeat(d, k);
        n.dependents + ([d] + Repeat(d, k));
        n.dependents + Repeat(d, k + 1);
      }
      assert WithDependents(n1, n.dependents + Repeat(d, k + 1)) == WithDependents(n, n.dependents + Repeat(d, k + 1));
    }
  }

  /** The first element of a list counts once, the rest as in the tail. */
  lemma CountFirst(os: seq<nat>, j: nat)
    requires os != []
    ensures multiset(os)[j] == (if j == os[0] then 1 else 0) + multiset(os[1..])[j]
  {
    assert os == [os[0]] + os[1..];
    assert multiset(os) == multiset{os[0]} + multiset(os[1..]);
  }

  /** The conditions a node meets when a constructor makes it as node `id`. */
  ghost predicate NewNode<V>(n: Node<V>, id: nat) {
    && (forall o :: o in Operands(n) ==> o < id)
    && n.dependents == []
    && (!n.Input? ==> n.cache == None)
  }

  /**
   * Puts the new node `n` at index |g| and registers it with its operands.
   * Every older node keeps its wiring and its slot; its dependents list
   * grows by the new index once per operand slot of `n` that names it.
   */
  function Attach<V>(g: Graph<V>, n: Node<V>): (r: (Graph<V>, nat))
    requires WellFormed(g) && NewNode(n, |g|)
    ensures r.1 == |g| && |r.0| == |g| + 1 && r.0[r.1] == n
    ensures forall j :: 0 <= j < |g| ==>
      r.0[j] == WithDependents(g[j], g[j].dependents + Repeat(r.1, Occurrences(n, j)))
    ensures WellFormed(r.0)
  {
    var h := Append(g, n);
    AttachWellFormed(g, n, h);
    (h, |g|)
  }

  /** The arena side of `Attach`, before well-formedness is established. */
  function Append<V>(g: Graph<V>, n: Node<V>): (h: Graph<V>)
    requires NewNode(n, |g|)
    ensures |h| == |g| + 1 && h[|g|] == n
    ensures forall j :: 0 <= j < |g| ==>
      h[j] == WithDependents(g[j], g[j].dependents + Repeat(|g|, Occurrences(n, j)))
  {
    var id := |g|;
    var g1 := g + [n];
    assert forall k :: 0 <= k < |Operands(n)| ==> Operands(n)[k] in Operands(n);
    var h := Register(g1, Operands(n), id);
    assert h[id] == n by {
      assert id !in Operands(n);
      assert multiset(Operands(n))[id] == 0;
      assert h[id] == WithDependents(n, []);
    }
    assert forall j :: 0 <= j < |g| ==> g1[j] == g[j];
    h
  }

  lemma AttachWellFormed<V>(g: Graph<V>, n: Node<V>, h: Graph<V>)
    requires WellFormed(g) && NewNode(n, |g|)
    requires |h| == |g| + 1 && h[|g|] == n
    requires forall j :: 0 <= j < |g| ==>
      h[j] == WithDependents(g[j], g[j].dependents + Repeat(|g|, Occurrences(n, j)))
    ensures WellFormed(h)
  {
    AppendEdges(g, n, h);
    WfAppend(OperandLists(g), DependentLists(g), OperandLists(h), DependentLists(h));
  }

  /** The edges after appending: old operand lists kept, old dependents lists extended. */
  lemma AppendEdges<V>(g: Graph<V>, n: Node<V>, h: Graph<V>)
    requires NewNode(n, |g|)
    requires |h| == |g| + 1 && h[|g|] == n
    requires forall j :: 0 <= j < |g| ==>
      h[j] == WithDependents(g[j], g[j].dependents + Repeat(|g|, Occurrences(n, j)))
    ensures |OperandLists(h)| == |DependentLists(h)| == |OperandLists(g)| + 1 && OperandLists(h)[..|g|] == OperandLists(g)
    ensures forall o :: o in OperandLists(h)[|g|] ==> o < |g|
    ensures DependentLists(h)[|g|] == []
    ensures forall j :: 0 <= j < |g| ==>
      DependentLists(h)[j] == DependentLists(g)[j] + Repeat(|g|, multiset(OperandLists(h)[|g|])[j])
  {
    var w, d := OperandLists(g), DependentLists(g);
    var w', d' := OperandLists(h), DependentLists(h);
    var id := |g|;
    assert w'[id] == Operands(n);
    forall j | 0 <= j < id
      ensures w'[j] == w[j] && d'[j] == d[j] + Repeat(id, multiset(Operands(n))[j])
    {
      assert h[j] == WithDependents(g[j], g[j].dependents + Repeat(|g|, Occurrences(n, j)));
    }
    assert w'[..id] == w;
  }

  /** `create_input`: a new Input holding `x`, with no dependents; no other node changes. */
  function CreateInput<V>(g: Graph<V>, x: V): (r: (Graph<V>, nat))
    requires WellFormed(g)
    ensures WellFormed(r.0) && r.1 == |g| && r.0 == g + [Input(x, [])]
  {
    var (h, id) := Attach(g, Input(x, []));
    assert h == g + [Input(x, [])];
    (h, id)
  }

  /**
   * The back-edges a binary constructor adds: node `id` = |g| is appended to
   * the dependents lists of `a` and `b` (twice to one list when `a` = `b`),
   * and every other node is untouched.
   */
  ghost predicate LinkedBinary<V>(g: Graph<V>, h: Graph<V>, id: nat, a: nat, b: nat) {
    && id == |g| && |h| == |g| + 1 && a < id && b < id
    && h[a] == WithDependents(g[a], g[a].dependents + (if a == b then [id, id] else [id]))
    && h[b] == WithDependents(g[b], g[b].dependents + (if a == b then [id, id] else [id]))
    && forall j :: 0 <= j < id && j != a && j != b ==> h[j] == g[j]
  }

  lemma AttachBinary<V>(g: Graph<V>, n: Node<V>, a: nat, b: nat)
    requires WellFormed(g) && NewNode(n, |g|) && Operands(n) == [a, b]
    ensures LinkedBinary(g, Attach(g, n).0, Attach(g, n).1, a, b)
  {
    assert a in Operands(n) && b in Operands(n);
    RegisteredBinary(g, Attach(g, n).0, n, a, b);
  }

  lemma RegisteredBinary<V>(g: Graph<V>, h: Graph<V>, n: Node<V>, a: nat, b: nat)
    requires |h| == |g| + 1 && Operands(n) == [a, b] && a < |g| && b < |g|
    requires forall j :: 0 <= j < |g| ==>
      h[j] == WithDependents(g[j], g[j].dependents + Repeat(|g|, Occurrences(n, j)))
    ensures LinkedBinary(g, h, |g|, a, b)
  {
    RegisteredNode(g[a], h[a], n, a, b, |g|, a);
    RegisteredNode(g[b], h[b], n, a, b, |g|, b);
    forall j | 0 <= j < |g| && j != a && j != b
      ensures h[j] == g[j]
    {
      RegisteredNode(g[j], h[j], n, a, b, |g|, j);
    }
  }

  /** What registering node `id` with operands [a, b] does to node j. */
  lemma RegisteredNode<V>(m: Node<V>, m': Node<V>, n: Node<V>, a: nat, b: nat, id: nat, j: nat)
    requires Operands(n) == [a, b]
    requires m' == WithDependents(m, m.dependents + Repeat(id, Occurrences(n, j)))
    ensures m' == if j == a || j == b then WithDependents(m, m.dependents + (if a == b then [id, id] else [id])) else m
  {
    var k := Occurrences(n, j);
    BinaryOccurrences(n, a, b, j);
    if k == 0 {
      assert m.dependents + Repeat(id, 0) == m.dependents;
    } else if k == 1 {
      assert Repeat(id, 1) == [id];
    } else {
      assert Repeat(id, 2) == [id, id];
    }
  }

  /** A node with operands [a, b] names j once for each of `a`, `b` equal to it. */
  lemma BinaryOccurrences<V>(n: Node<V>, a: nat, b: nat, j: nat)
    requires Operands(n) == [a, b]
    ensures Occurrences(n, j) == (if j == a then 1 else 0) + (if j == b then 1 else 0)
  {
    assert multiset(Operands(n)) == multiset{a, b};
  }

  /** `create_add`: node |g| is `Add(a, b)` with an empty slot, linked to its operands. */
  function CreateAdd<V>(g: Graph<V>, a: nat, b: nat): (r: (Graph<V>, nat))
    requires WellFormed(g) && a < |g| && b < |g|
    ensures LinkedBinary(g, r.0, r.1, a, b)
    ensures WellFormed(r.0) && r.0[r.1] == Add(a, b, None, [])
  {
    AttachBinary(g, Add(a, b, None, []), a, b);
    Attach(g, Add(a, b, None, []))
  }

  /** `create_mul`: node |g| is `Mul(a, b)` with an empty slot, linked to its operands. */
  function CreateMul<V>(g: Graph<V>, a: nat, b: nat): (r: (Graph<V>, nat))
    requires WellFormed(g) && a < |g| && b < |g|
    ensures LinkedBinary(g, r.0, r.1, a, b)
    ensures WellFormed(r.0) && r.0[r.1] == Mul(a, b, None, [])
  {
    AttachBinary(g, Mul(a, b, None, []), a, b);
    Attach(g, Mul(a, b, None, []))
  }

  /** `create_pow`: node |g| is `Pow(a, b)` with an empty slot, linked to its operands. */
  function CreatePow<V>(g: Graph<V>, a: nat, b: nat): (r: (Graph<V>, nat))
    requires WellFormed(g) && a < |g| && b < |g|
    ensures LinkedBinary(g, r.0, r.1, a, b)
    ensures WellFormed(r.0) && r.0[r.1] == Pow(a, b, None, [])
  {
    AttachBinary(g, Pow(a, b, None, []), a, b);
    Attach(g, Pow(a, b, None, []))
  }

  /** The binary constructors are attachments of the node they name. */
  lemma CreateBinaryAttaches<V>(g: Graph<V>, a: nat, b: nat)
    requires WellFormed(g) && a < |g| && b < |g|
    ensures NewNode<V>(Add(a, b, None, []), |g|) && CreateAdd(g, a, b) == Attach(g, Add(a, b, None, []))
    ensures NewNode<V>(Mul(a, b, None, []), |g|) && CreateMul(g, a, b) == Attach(g, Mul(a, b, None, []))
    ensures NewNode<V>(Pow(a, b, None, []), |g|) && CreatePow(g, a, b) == Attach(g, Pow(a, b, None, []))
  {
  }

  /**
   * `create_sin`: node `id` = |g| is `Sin` of `a` with an empty slot, `a`'s
   * dependents list gains `id` once, and nothing else changes.
   */
  function CreateSin<V>(g: Graph<V>, a: nat): (r: (Graph<V>, nat))
    requires WellFormed(g) && a < |g|
    ensures WellFormed(r.0) && r.1 == |g| && |r.0| == |g| + 1
    ensures r.0[r.1] == Sin(a, None, [])
    ensures r.0[a] == WithDependents(g[a], g[a].dependents + [r.1])
    ensures forall j :: 0 <= j < |g| && j != a ==> r.0[j] == g[j]
  {
    var n := Sin(a, None, []);
    var (h, id) := Attach(g, n);
    assert Operands(n) == [a];
    assert Occurrences(n, a) == 1 && Repeat(id, 1) == [id];
    forall j | 0 <= j < |g| && j != a
      ensures h[j] == g[j]
    {
      assert Occurrences(n, j) == 0;
    }
    (h, id)
  }

  /**
   * Building a node keeps every slot truthful and leaves the fresh value
   * of every older node as it was.
   */
  lemma AttachKeepsConsistent<V>(ops: Ops<V>, g: Graph<V>, n: Node<V>)
    requires WellFormed(g) && NewNode(n, |g|) && Consistent(ops, g)
    ensures Consistent(ops, Attach(g, n).0)
    ensures forall j :: 0 <= j < |g| ==> Fresh(ops, Attach(g, n).0, j) == Fresh(ops, g, j)
  {
    var (h, id) := Attach(g, n);
    forall j | 0 <= j < |g|
      ensures Fresh(ops, h, j) == Fresh(ops, g, j)
    {
      FreshAgrees(ops, g, h, j);
    }
  }
}

=== FILE: evaluation.dfy ===
/**
 * `compute`: pull evaluation along operand edges, answering from the memo
 * slot on a hit and filling it on a miss. The graph is threaded through
 * the calls because every miss writes a cache.
 */
module Evaluation {
  import opened Nodes
  import opened Shape
  import opened Arena

  /**
   * `h` is `g` after some evaluation: same wiring and back-edges, and every
   * slot that answered before answers the same now (caches are only filled).
   */
  ghost predicate Fills<V>(g: Graph<V>, h: Graph<V>) {
    && WellFormed(h)
    && SameWiring(g, h)
    && forall j :: 0 <= j < |g| && GetCachedValue(g[j]).Some? ==> GetCachedValue(h[j]) == GetCachedValue(g[j])
  }

  lemma FillsTransitive<V>(g: Graph<V>, h: Graph<V>, k: Graph<V>)
    requires Fills(g, h) && Fills(h, k)
    ensures Fills(g, k)
  {
  }

  /** Whatever an operand of node i reads, node i reads too. */
  lemma OperandAncestors<V>(g: Graph<V>, i: nat)
    requires PointBackward(OperandLists(g)) && i < |g|
    ensures forall j :: 0 <= j < |g| && !g[i].Input? && g[i].a < i && ReadsFrom(OperandLists(g), g[i].a, j) ==>
      ReadsFrom(OperandLists(g), i, j)
    ensures forall j :: 0 <= j < |g| && (g[i].Add? || g[i].Mul? || g[i].Pow?) && g[i].b < i && ReadsFrom(OperandLists(g), g[i].b, j) ==>
      ReadsFrom(OperandLists(g), i, j)
  {
    var w := OperandLists(g);
    assert w[i] == Operands(g[i]);
    if !g[i].Input? {
      assert w[i][0] == g[i].a;
    }
    if g[i].Add? || g[i].Mul? || g[i].Pow? {
      assert w[i][1] == g[i].b;
    }
  }

  /** The tail of a miss: remember `v` in node i's slot and hand it back. */
  function Store<V>(g: Graph<V>, i: nat, v: V): (r: (V, Graph<V>))
    requires WellFormed(g) && i < |g| && !g[i].Input?
    ensures r.0 == v && SameWiring(g, r.1) && WellFormed(r.1)
    ensures GetCachedValue(r.1[i]) == Some(v)
    ensures forall j :: 0 <= j < |g| && j != i ==> r.1[j] == g[j]
  {
    var h := g[i := SaveToCache(g[i], v)];
    SameWiringSameEdges(g, h);
    (v, h)
  }

  /** The `sin` helper: evaluate the operand, then apply the operator. */
  function Unary<V>(ops: Ops<V>, g: Graph<V>, a: nat, f: V -> V): (r: (V, Graph<V>))
    requires WellFormed(g) && a < |g|
    ensures Fills(g, r.1)
    ensures forall j :: a < j < |g| ==> r.1[j] == g[j]
    ensures forall j :: 0 <= j < |g| && !ReadsFrom(OperandLists(g), a, j) ==> r.1[j] == g[j]
    ensures GetCachedValue(r.1[a]).Some?
    decreases a, 2
  {
    var (va, g1) := Compute(ops, g, a);
    (f(va), g1)
  }

  /** The `add`, `mul` and `pow` helpers: evaluate `a`, then `b`, then apply the operator. */
  function Binary<V>(ops: Ops<V>, g: Graph<V>, a: nat, b: nat, f: (V, V) -> V): (r: (V, Graph<V>))
    requires WellFormed(g) && a < |g| && b < |g|
    ensures Fills(g, r.1)
    ensures forall j :: a < j < |g| && b < j ==> r.1[j] == g[j]
    ensures forall j :: 0 <= j < |g| && !ReadsFrom(OperandLists(g), a, j) && !ReadsFrom(OperandLists(g), b, j) ==> r.1[j] == g[j]
    ensures GetCachedValue(r.1[a]).Some? && GetCachedValue(r.1[b]).Some?
    decreases if a < b then b else a, 2
  {
    var (va, g1) := Compute(ops, g, a);
    SameWiringSameEdges(g, g1);
    var (vb, g2) := Compute(ops, g1, b);
    FillsTransitive(g, g1, g2);
    (f(va, vb), g2)
  }

  /**
   * The miss path of `compute`: the node's value from its operands' values
   * (an Input yields its own value), with the slots that evaluating the
   * operands filled.
   */
  function Operate<V>(ops: Ops<V>, g: Graph<V>, i: nat): (r: (V, Graph<V>))
    requires WellFormed(g) && i < |g|
    ensures Fills(g, r.1)
    ensures forall j :: i <= j < |g| ==> r.1[j] == g[j]
    ensures forall j :: 0 <= j < |g| && !ReadsFrom(OperandLists(g), i, j) ==> r.1[j] == g[j]
    decreases i, 0
  {
    OperandsPrecede(g, i);
    OperandAncestors(g, i);
    match g[i]
    case Input(x, _) => (x, g)
    case Sin(a, _, _) => Unary(ops, g, a, ops.sin)
    case Add(a, b, _, _) => Binary(ops, g, a, b, ops.add)
    case Mul(a, b, _, _) => Binary(ops, g, a, b, ops.mul)
    case Pow(a, b, _, _) => Binary(ops, g, a, b, ops.pow)
  }

  /**
   * The value of node i and the graph with the memo slots the evaluation
   * filled: a hit answers from the slot, a miss operates and remembers.
   */
  function Compute<V>(ops: Ops<V>, g: Graph<V>, i: nat): (r: (V, Graph<V>))
    requires WellFormed(g) && i < |g|
    ensures Fills(g, r.1)
    ensures GetCachedValue(r.1[i]) == Some(r.0)
    ensures forall j :: i < j < |g| ==> r.1[j] == g[j]
    ensures GetCachedValue(g[i]).Some? ==> r == (GetCachedValue(g[i]).value, g)
    ensures g[i].Input? ==> r == (g[i].x, g)
    ensures forall j :: 0 <= j < |g| && !ReadsFrom(OperandLists(g), i, j) ==> r.1[j] == g[j]
    decreases i, 1
  {
    match GetCachedValue(g[i])
    case Some(v) => (v, g)
    case None =>
      var (v, g1) := Operate(ops, g, i);
      var r := Store(g1, i, v);
      FillsTransitive(g, g1, r.1);
      r
  }

  /** Filling node i's slot with its fresh value keeps every slot truthful. */
  lemma StoreKeepsConsistent<V>(ops: Ops<V>, g: Graph<V>, i: nat, v: V)
    requires WellFormed(g) && i < |g| && !g[i].Input? && Consistent(ops, g)
    requires v == Fresh(ops, g, i)
    ensures Consistent(ops, Store(g, i, v).1)
  {
    var h := Store(g, i, v).1;
    FreshSameWiring(ops, g, h);
  }

  lemma {:induction false} UnaryIsFresh<V>(ops: Ops<V>, g: Graph<V>, a: nat, f: V -> V)
    requires WellFormed(g) && a < |g| && Consistent(ops, g)
    ensures Unary(ops, g, a, f).0 == f(Fresh(ops, g, a))
    ensures Consistent(ops, Unary(ops, g, a, f).1)
    decreases a, 2
  {
    ComputeIsFresh(ops, g, a);
  }

  lemma {:induction false} BinaryIsFresh<V>(ops: Ops<V>, g: Graph<V>, a: nat, b: nat, f: (V, V) -> V)
    requires WellFormed(g) && a < |g| && b < |g| && Consistent(ops, g)
    ensures Binary(ops, g, a, b, f).0 == f(Fresh(ops, g, a), Fresh(ops, g, b))
    ensures Consistent(ops, Binary(ops, g, a, b, f).1)
    decreases if a < b then b else a, 2
  {
    var (va, g1) := Compute(ops, g, a);
    ComputeIsFresh(ops, g, a);
    ComputeIsFresh(ops, g1, b);
    FreshSameWiring(ops, g, g1);
  }

  /** The miss path computes the cache-free value and keeps every slot truthful. */
  lemma {:induction false} OperateIsFresh<V>(ops: Ops<V>, g: Graph<V>, i: nat)
    requires WellFormed(g) && i < |g| && Consistent(ops, g)
    ensures Operate(ops, g, i).0 == Fresh(ops, g, i)
    ensures Consistent(ops, Operate(ops, g, i).1)
    decreases i, 0
  {
    OperandsPrecede(g, i);
    match g[i]
    case Input(_, _) =>
    case Sin(a, _, _) => UnaryIsFresh(ops, g, a, ops.sin);
    case Add(a, b, _, _) => BinaryIsFresh(ops, g, a, b, ops.add);
    case Mul(a, b, _, _) => BinaryIsFresh(ops, g, a, b, ops.mul);
    case Pow(a, b, _, _) => BinaryIsFresh(ops, g, a, b, ops.pow);
  }

  /**
   * On a graph whose slots are truthful, `compute` returns the cache-free
   * value and leaves every slot truthful: memoisation is invisible.
   */
  lemma {:induction false} ComputeIsFresh<V>(ops: Ops<V>, g: Graph<V>, i: nat)
    requires WellFormed(g) && i < |g| && Consistent(ops, g)
    ensures Compute(ops, g, i).0 == Fresh(ops, g, i)
    ensures Consistent(ops, Compute(ops, g, i).1)
    decreases i, 1
  {
    if GetCachedValue(g[i]).None? {
      var (v, g1) := Operate(ops, g, i);
      OperateIsFresh(ops, g, i);
      FreshSameWiring(ops, g, g1);
      StoreKeepsConsistent(ops, g1, i, v);
    }
  }

  /** The miss path leaves every operand of node i answering from its slot. */
  lemma OperateMemo<V>(ops: Ops<V>, g: Graph<V>, i: nat)
    requires WellFormed(g) && i < |g|
    ensures forall o :: o in Operands(g[i]) ==> o < i && GetCachedValue(Operate(ops, g, i).1[o]).Some?
  {
    OperandsPrecede(g, i);
    match g[i]
    case Input(_, _) =>
    case Sin(a, _, _) =>
      assert Operands(g[i]) == [a];
    case Add(a, b, _, _) =>
      assert Operands(g[i]) == [a, b];
    case Mul(a, b, _, _) =>
      assert Operands(g[i]) == [a, b];
    case Pow(a, b, _, _) =>
      assert Operands(g[i]) == [a, b];
  }

  /**
   * A miss remembers more than its own value: every operand it evaluated
   * answers from its slot afterwards, so an operand shared with a later
   * evaluation is a hit there.
   */
  lemma ComputeMemoisesOperands<V>(ops: Ops<V>, g: Graph<V>, i: nat)
    requires WellFormed(g) && i < |g| && GetCachedValue(g[i]).None?
    ensures forall o :: o in Operands(g[i]) ==> o < i && GetCachedValue(Compute(ops, g, i).1[o]).Some?
  {
    var (v, g1) := Operate(ops, g, i);
    OperateMemo(ops, g, i);
    assert Compute(ops, g, i) == Store(g1, i, v);
  }

  /**
   * A second `compute` of the same node, with no `set` in between, answers
   * from the slot: same value, and the graph is left as the first call left it.
   * In particular a second evaluation of a shared operand is a hit that
   * changes nothing.
   */
  lemma ComputeTwice<V>(ops: Ops<V>, g: Graph<V>, i: nat)
    requires WellFormed(g) && i < |g|
    ensures Compute(ops, Compute(ops, g, i).1, i) == Compute(ops, g, i)
  {
  }
}

=== FILE: invalidation.dfy ===
/**
 * `set` and `clear_cache`: writing an Input pushes invalidation forward
 * along dependents edges, emptying the memo slot of every node reached.
 */
module Invalidation {
  import opened Nodes
  import opened Shape
  import opened Arena

  /** The dependents of node i are newer nodes of the graph. */
  lemma DependentsFollow<V>(g: Graph<V>, i: nat)
    requires PointForward(DependentLists(g)) && i < |g|
    ensures forall k :: 0 <= k < |g[i].dependents| ==> i < g[i].dependents[k] < |g|
  {
    assert DependentLists(g)[i] == g[i].dependents;
  }

  /** Some node of `ds` reaches j along dependents edges. */
  ghost predicate ReachedFrom(d: Edges, ds: seq<nat>, j: nat)
    requires PointForward(d)
    requires forall k :: 0 <= k < |ds| ==> ds[k] < |d|
  {
    exists k :: 0 <= k < |ds| && Reaches(d, ds[k], j)
  }

  lemma ReachedFromCons(d: Edges, ds: seq<nat>)
    requires PointForward(d) && ds != []
    requires forall k :: 0 <= k < |ds| ==> ds[k] < |d|
    ensures forall j :: ReachedFrom(d, ds, j) <==> Reaches(d, ds[0], j) || ReachedFrom(d, ds[1..], j)
  {
    forall j | ReachedFrom(d, ds[1..], j)
      ensures ReachedFrom(d, ds, j)
    {
      var k :| 0 <= k < |ds[1..]| && Reaches(d, ds[1..][k], j);
      assert ds[1..][k] == ds[k + 1];
    }
    forall j | ReachedFrom(d, ds, j) && !Reaches(d, ds[0], j)
      ensures ReachedFrom(d, ds[1..], j)
    {
      var k :| 0 <= k < |ds| && Reaches(d, ds[k], j);
      assert ds[k] == ds[1..][k - 1];
    }
  }

  lemma ClearedTwice<V>(n: Node<V>)
    ensures Cleared(Cleared(n)) == Cleared(n)
  {
  }

  /**
   * `clear_cache` on node i: empty its slot, then clear each dependent in
   * list order. A node reached along several paths is cleared several
   * times, which changes nothing after the first.
   */
  function ClearCache<V>(g: Graph<V>, i: nat): (r: Graph<V>)
    requires PointForward(DependentLists(g)) && i < |g|
    ensures SameWiring(g, r)
    ensures forall j :: 0 <= j < |g| ==> r[j] == if Reaches(DependentLists(g), i, j) then Cleared(g[j]) else g[j]
    decreases |g| - i, 1
  {
    var g1 := g[i := Cleared(g[i])];
    SameWiringSameEdges(g, g1);
    DependentsFollow(g, i);
    var r := ClearEach(g1, i, g[i].dependents);
    forall j | 0 <= j < |g|
      ensures Reaches(DependentLists(g), i, j) <==> j == i || ReachedFrom(DependentLists(g), g[i].dependents, j)
    {
      assert DependentLists(g)[i] == g[i].dependents;
    }
    r
  }

  /** The loop of `clear_cache` over the dependents `ds` of node `from`. */
  function ClearEach<V>(g: Graph<V>, from: nat, ds: seq<nat>): (r: Graph<V>)
    requires PointForward(DependentLists(g)) && from < |g|
    requires forall k :: 0 <= k < |ds| ==> from < ds[k] < |g|
    ensures SameWiring(g, r)
    ensures forall j :: 0 <= j < |g| ==>
      r[j] == if ReachedFrom(DependentLists(g), ds, j) then Cleared(g[j]) else g[j]
    decreases |g| - from, 0, |ds|
  {
    if ds == [] then g
    else
      var g1 := ClearCache(g, ds[0]);
      SameWiringSameEdges(g, g1);
      ReachedFromCons(DependentLists(g), ds);
      var r := ClearEach(g1, from, ds[1..]);
      forall j | 0 <= j < |g|
        ensures r[j] == if ReachedFrom(DependentLists(g), ds, j) then Cleared(g[j]) else g[j]
      {
        ClearedTwice(g[j]);
      }
      r
  }

  /**
   * The store of `set` on Input i, before any invalidation: the Input takes
   * the new value, and its edges and every other node stay as they were.
   */
  function Write<V>(g: Graph<V>, i: nat, v: V): (r: Graph<V>)
    requires i < |g| && g[i].Input?
    ensures |r| == |g| && OperandLists(r) == OperandLists(g) && DependentLists(r) == DependentLists(g)
    ensures Wirings(r) == Wirings(g)[i := Input(v, [])]
    ensures r[i] == Input(v, g[i].dependents)
    ensures forall j :: 0 <= j < |g| && j != i ==> r[j] == g[j]
  {
    var r := g[i := g[i].(x := v)];
    assert OperandLists(r) == OperandLists(g) by {
      assert Operands(r[i]) == [] == Operands(g[i]);
    }
    r
  }

  /**
   * `set` on Input i: write the new value, then clear the memo slot of
   * every node that reads i; nothing else changes. Only an Input may be
   * set: the system panics on any other node.
   */
  function Set<V>(g: Graph<V>, i: nat, v: V): (r: Graph<V>)
    requires WellFormed(g) && i < |g| && g[i].Input?
    ensures WellFormed(r) && |r| == |g|
    ensures OperandLists(r) == OperandLists(g) && DependentLists(r) == DependentLists(g)
    ensures r[i] == Input(v, g[i].dependents)
    ensures forall j :: 0 <= j < |g| && j != i ==>
      r[j] == if ReadsFrom(OperandLists(g), j, i) then Cleared(g[j]) else g[j]
  {
    var g1 := Write(g, i, v);
    var r := ClearCache(g1, i);
    SameWiringSameEdges(g1, r);
    forall j | 0 <= j < |g|
      ensures Reaches(DependentLists(g1), i, j) <==> ReadsFrom(OperandLists(g), j, i)
    {
      ReachesIffReadsFrom(OperandLists(g1), DependentLists(g1), i, j);
    }
    r
  }

  /** After `set`, every slot that still answers is truthful for the new input value. */
  lemma SetKeepsConsistent<V>(ops: Ops<V>, g: Graph<V>, i: nat, v: V)
    requires WellFormed(g) && i < |g| && g[i].Input? && Consistent(ops, g)
    ensures Consistent(ops, Set(g, i, v))
  {
    var r := Set(g, i, v);
    var w := OperandLists(g);
    forall j | 0 <= j < |g| && GetCachedValue(r[j]).Some?
      ensures GetCachedValue(r[j]).value == Fresh(ops, r, j)
    {
      if j != i && !ReadsFrom(w, j, i) {
        forall k | 0 <= k < |g| && ReadsFrom(w, j, k)
          ensures Wiring(r[k]) == Wiring(g[k])
        {
          assert k != i;
        }
        FreshAgrees(ops, g, r, j);
      }
    }
  }

  /** Setting an Input twice to the same value leaves the graph as setting it once. */
  lemma SetIdempotent<V>(g: Graph<V>, i: nat, v: V)
    requires WellFormed(g) && i < |g| && g[i].Input?
    ensures Set(Set(g, i, v), i, v) == Set(g, i, v)
  {
    var r1 := Set(g, i, v);
    var r2 := Set(r1, i, v);
    forall j | 0 <= j < |g|
      ensures r2[j] == r1[j]
    {
      if j != i && ReadsFrom(OperandLists(g), j, i) {
        assert Cleared(Cleared(g[j])) == Cleared(g[j]);
      }
    }
  }
}

=== FILE: nodes.dfy ===
/**
 * One vertex of the expression graph and the accessors of its slots.
 *
 * In the system a node is shared through reference-counted cells; here
 * nodes live in an arena (module Arena) and refer to each other by index.
 * The scalar type `V` (f32 in the system) and its operators are abstract:
 * the behaviour of interest is the caching and the invalidation, not the
 * numerics.
 */
module Nodes {

  datatype Option<+T> = None | Some(value: T)

  /** The scalar operators the graph applies (`+`, `*`, `sin` and `powf` in the system). */
  datatype Ops<!V> = Ops(add: (V, V) -> V, mul: (V, V) -> V, sin: V -> V, pow: (V, V) -> V)

  /**
   * The node variants. `a` and `b` are operand indices (the operand of `Sin`
   * is `a`), `cache` is the memo slot of an operator node, and `dependents`
   * lists the indices of the nodes that read this one, one entry per
   * operand slot naming it.
   */
  datatype Node<V> =
    | Input(x: V, dependents: seq<nat>)
    | Add(a: nat, b: nat, cache: Option<V>, dependents: seq<nat>)
    | Mul(a: nat, b: nat, cache: Option<V>, dependents: seq<nat>)
    | Sin(a: nat, cache: Option<V>, dependents: seq<nat>)
    | Pow(a: nat, b: nat, cache: Option<V>, dependents: seq<nat>)

  /** The operand indices of `n`, in the order `compute` evaluates them. */
  function Operands<V>(n: Node<V>): seq<nat> {
    match n
    case Input(_, _) => []
    case Sin(a, _, _) => [a]
    case Add(a, b, _, _) => [a, b]
    case Mul(a, b, _, _) => [a, b]
    case Pow(a, b, _, _) => [a, b]
  }

  /** How many operand slots of `n` name node `j`. */
  function Occurrences<V>(n: Node<V>, j: nat): nat {
    multiset(Operands(n))[j]
  }

  /** What `n` computes from what: the node with an empty cache and no back-edges. */
  function Wiring<V>(n: Node<V>): (w: Node<V>)
    ensures Operands(w) == Operands(n)
    ensures w.Input? <==> n.Input?
    ensures w.dependents == []
    ensures !w.Input? ==> w.cache == None
  {
    match n
    case Input(x, _) => Input(x, [])
    case Add(a, b, _, _) => Add(a, b, None, [])
    case Mul(a, b, _, _) => Mul(a, b, None, [])
    case Sin(a, _, _) => Sin(a, None, [])
    case Pow(a, b, _, _) => Pow(a, b, None, [])
  }

  /** An Input answers with its value, an operator node with its memo slot. */
  function GetCachedValue<V>(n: Node<V>): (c: Option<V>)
    ensures n.Input? ==> c == Some(n.x)
  {
    if n.Input? then Some(n.x) else n.cache
  }

  /** Fills the memo slot of an operator node; an Input is left as it is. */
  function SaveToCache<V>(n: Node<V>, v: V): (m: Node<V>)
    ensures Wiring(m) == Wiring(n) && m.dependents == n.dependents
    ensures GetCachedValue(m) == if n.Input? then Some(n.x) else Some(v)
  {
    if n.Input? then n else n.(cache := Some(v))
  }

  /** Empties the memo slot of an operator node; an Input is left as it is. */
  function Cleared<V>(n: Node<V>): (m: Node<V>)
    ensures Wiring(m) == Wiring(n) && m.dependents == n.dependents
    ensures GetCachedValue(m) == if n.Input? then Some(n.x) else None
  {
    if n.Input? then n else n.(cache := None)
  }

  /** `n` with its back-edges replaced by `ds` and nothing else changed. */
  function WithDependents<V>(n: Node<V>, ds: seq<nat>): (m: Node<V>)
    ensures Wiring(m) == Wiring(n) && GetCachedValue(m) == GetCachedValue(n)
    ensures Operands(m) == Operands(n)
    ensures m.dependents == ds
  {
    n.(dependents := ds)
  }

  /** Appends `d` to the back-edges of `n` and changes nothing else. */
  function AddDependent<V>(n: Node<V>, d: nat): (m: Node<V>)
    ensures Wiring(m) == Wiring(n) && GetCachedValue(m) == GetCachedValue(n)
    ensures m.dependents == n.dependents + [d]
  {
    n.(dependents := n.dependents + [d])
  }
}

=== FILE: session.dfy ===
/**
 * A client session: a sequence of constructor, `set` and `compute` calls
 * against one graph, and the statement that the memo cache is invisible to
 * the client: the same calls against a machine that never caches and
 * never invalidates produce the same values.
 */
module Session {
  import opened Nodes
  import opened Shape
  import opened Arena
  import opened Construction
  import opened Evaluation
  import opened Invalidation

  /** One call of the graph's interface. */
  datatype Call<V> =
    | NewInput(x: V)
    | NewAdd(a: nat, b: nat)
    | NewMul(a: nat, b: nat)
    | NewSin(a: nat)
    | NewPow(a: nat, b: nat)
    | SetValue(node: nat, value: V)
    | Evaluate(node: nat)

  /**
   * Whether the call may be made: every node it names exists, and `set`
   * names an Input (the system panics otherwise).
   */
  predicate Allowed<V>(g: Graph<V>, c: Call<V>) {
    match c
    case NewInput(_) => true
    case NewAdd(a, b) => a < |g| && b < |g|
    case NewMul(a, b) => a < |g| && b < |g|
    case NewSin(a) => a < |g|
    case NewPow(a, b) => a < |g| && b < |g|
    case SetValue(i, _) => i < |g| && g[i].Input?
    case Evaluate(i) => i < |g|
  }

  /**
   * `h` grows out of `g`: no node disappears, every existing node keeps its
   * kind and operands, and a dependents list is only ever extended at its end.
   */
  ghost predicate Grows<V>(g: Graph<V>, h: Graph<V>) {
    && |g| <= |h|
    && forall j :: 0 <= j < |g| ==>
      && Operands(h[j]) == Operands(g[j])
      && (h[j].Input? <==> g[j].Input?)
      && g[j].dependents <= h[j].dependents
  }

  lemma GrowsTransitive<V>(g: Graph<V>, h: Graph<V>, k: Graph<V>)
    requires Grows(g, h) && Grows(h, k)
    ensures Grows(g, k)
  {
    forall j | 0 <= j < |g|
      ensures g[j].dependents <= k[j].dependents
    {
      var d, e := g[j].dependents, h[j].dependents;
      assert d == e[..|d|];
      assert e == k[j].dependents[..|e|];
      assert d == k[j].dependents[..|d|];
    }
  }

  /** A plain write keeps every node's kind, operands and dependents. */
  lemma WriteGrows<V>(g: Graph<V>, i: nat, v: V)
    requires i < |g| && g[i].Input?
    ensures Grows(g, Write(g, i, v))
  {
  }

  /** The constructor calls. */
  predicate Creates<V>(c: Call<V>) {
    c.NewInput? || c.NewAdd? || c.NewMul? || c.NewSin? || c.NewPow?
  }

  /** The new node a constructor call builds. */
  function Built<V>(c: Call<V>): Node<V>
    requires Creates(c)
  {
    match c
    case NewInput(x) => Input(x, [])
    case NewAdd(a, b) => Add(a, b, None, [])
    case NewMul(a, b) => Mul(a, b, None, [])
    case NewSin(a) => Sin(a, None, [])
    case NewPow(a, b) => Pow(a, b, None, [])
  }

  /**
   * The constructor a call names (`create_input`, `create_add`, `create_mul`,
   * `create_sin` or `create_pow`): each is the attachment of the node the
   * call builds.
   */
  function Construct<V>(g: Graph<V>, c: Call<V>): (r: (Graph<V>, nat))
    requires WellFormed(g) && Allowed(g, c) && Creates(c)
    ensures NewNode(Built(c), |g|) && r == Attach(g, Built(c))
  {
    match c
    case NewInput(x) => CreateInput(g, x)
    case NewAdd(a, b) => CreateBinaryAttaches(g, a, b); CreateAdd(g, a, b)
    case NewMul(a, b) => CreateBinaryAttaches(g, a, b); CreateMul(g, a, b)
    case NewSin(a) => CreateSin(g, a)
    case NewPow(a, b) => CreateBinaryAttaches(g, a, b); CreatePow(g, a, b)
  }

  /** A constructor appends one node and only extends older dependents lists. */
  lemma AppendGrows<V>(g: Graph<V>, n: Node<V>, h: Graph<V>)
    requires |h| == |g| + 1 && h[|g|] == n
    requires forall j :: 0 <= j < |g| ==>
      h[j] == WithDependents(g[j], g[j].dependents + Repeat(|g|, Occurrences(n, j)))
    ensures Grows(g, h)
  {
    forall j | 0 <= j < |g|
      ensures Operands(h[j]) == Operands(g[j]) && (h[j].Input? <==> g[j].Input?)
      ensures g[j].dependents <= h[j].dependents
    {
      assert Wiring(h[j]) == Wiring(g[j]);
    }
  }

  /** Graphs that differ in memo slots only grow out of each other. */
  lemma SameWiringGrows<V>(g: Graph<V>, h: Graph<V>)
    requires SameWiring(g, h)
    ensures Grows(g, h)
  {
    forall j | 0 <= j < |g|
      ensures Operands(h[j]) == Operands(g[j]) && (h[j].Input? <==> g[j].Input?)
    {
      assert Wiring(h[j]) == Wiring(g[j]);
    }
  }

  /** `set` keeps every node's kind, operands and dependents. */
  lemma SetGrows<V>(g: Graph<V>, i: nat, v: V)
    requires WellFormed(g) && i < |g| && g[i].Input?
    ensures Grows(g, Set(g, i, v))
  {
    var r := Set(g, i, v);
    forall j | 0 <= j < |g|
      ensures Operands(r[j]) == Operands(g[j]) && (r[j].Input? <==> g[j].Input?)
      ensures g[j].dependents == r[j].dependents
    {
      assert OperandLists(r)[j] == OperandLists(g)[j] && DependentLists(r)[j] == DependentLists(g)[j];
      if j != i {
        assert Wiring(r[j]) == Wiring(g[j]);
      }
    }
  }

  /** A constructor adds the wiring of the new node and changes no older wiring. */
  lemma AppendWirings<V>(g: Graph<V>, n: Node<V>, h: Graph<V>)
    requires |h| == |g| + 1 && h[|g|] == n
    requires forall j :: 0 <= j < |g| ==>
      h[j] == WithDependents(g[j], g[j].dependents + Repeat(|g|, Occurrences(n, j)))
    ensures Wirings(h) == Wirings(g) + [Wiring(n)]
  {
    var l := Wirings(g) + [Wiring(n)];
    forall j | 0 <= j < |h|
      ensures Wirings(h)[j] == l[j]
    {
      assert Wirings(h)[j] == Wiring(h[j]);
      if j < |g| {
        assert l[j] == Wirings(g)[j] == Wiring(g[j]);
        assert Wiring(h[j]) == Wiring(g[j]);
      } else {
        assert j == |g| && l[j] == Wiring(n);
      }
    }
    assert |Wirings(h)| == |l|;
  }

  /** `set` rewires nothing but the value of the Input it writes. */
  lemma SetWirings<V>(g: Graph<V>, i: nat, v: V)
    requires WellFormed(g) && i < |g| && g[i].Input?
    ensures Wirings(Set(g, i, v)) == Wirings(g)[i := Input(v, [])]
  {
    var r := Set(g, i, v);
    forall j | 0 <= j < |g|
      ensures Wirings(r)[j] == Wirings(g)[i := Input(v, [])][j]
    {
    }
  }

  lemma SameWiringWirings<V>(g: Graph<V>, h: Graph<V>)
    requires SameWiring(g, h)
    ensures Wirings(g) == Wirings(h)
  {
  }

  /** The caching graph after one allowed call. */
  function Step<V>(ops: Ops<V>, g: Graph<V>, c: Call<V>): (r: (Option<V>, Graph<V>))
    requires WellFormed(g) && Allowed(g, c)
    ensures WellFormed(r.1) && Grows(g, r.1)
    ensures r.0.Some? <==> c.Evaluate?
    ensures Creates(c) ==> Wirings(r.1) == Wirings(g) + [Built(c)]
    ensures c.SetValue? ==> Wirings(r.1) == Wirings(g)[c.node := Input(c.value, [])]
    ensures c.Evaluate? ==> Wirings(r.1) == Wirings(g)
  {
    if c.SetValue? then
      SetGrows(g, c.node, c.value);
      SetWirings(g, c.node, c.value);
      (None, Set(g, c.node, c.value))
    else if c.Evaluate? then
      var (v, h) := Compute(ops, g, c.node);
      SameWiringGrows(g, h);
      SameWiringWirings(g, h);
      (Some(v), h)
    else
      var n := Built(c);
      assert Wiring(n) == n;
      var h := Construct(g, c).0;
      AppendGrows(g, n, h);
      AppendWirings(g, n, h);
      (None, h)
  }

  /** The same call against a graph that never caches: a value is always evaluated afresh. */
  function ReferenceStep<V>(ops: Ops<V>, g: Graph<V>, c: Call<V>): (r: (Option<V>, Graph<V>))
    requires WellFormed(g) && Allowed(g, c)
    ensures WellFormed(r.1) && Grows(g, r.1)
    ensures r.0.Some? <==> c.Evaluate?
    ensures Creates(c) ==> Wirings(r.1) == Wirings(g) + [Built(c)]
    ensures c.SetValue? ==> Wirings(r.1) == Wirings(g)[c.node := Input(c.value, [])]
    ensures c.Evaluate? ==> Wirings(r.1) == Wirings(g)
  {
    if c.SetValue? then
      WriteGrows(g, c.node, c.value);
      (None, Write(g, c.node, c.value))
    else if c.Evaluate? then
      (Some(Fresh(ops, g, c.node)), g)
    else
      var n := Built(c);
      assert Wiring(n) == n;
      var h := Construct(g, c).0;
      AppendGrows(g, n, h);
      AppendWirings(g, n, h);
      (None, h)
  }

  /**
   * The values a session observes, the graph it leaves, how many calls it
   * carried out, and whether it stopped on a refused call.
   */
  datatype Outcome<V> = Outcome(values: seq<V>, graph: Graph<V>, done: nat, panicked: bool)

  /** Runs the calls in order against the caching graph, stopping at the first refused call. */
  function Run<V>(ops: Ops<V>, g: Graph<V>, cs: seq<Call<V>>): (r: Outcome<V>)
    requires WellFormed(g)
    ensures WellFormed(r.graph) && Grows(g, r.graph)
    ensures |r.values| <= r.done <= |cs|
    ensures !r.panicked <==> r.done == |cs|
    decreases |cs|
  {
    if cs == [] then
      Outcome([], g, 0, false)
    else if !Allowed(g, cs[0]) then
      Outcome([], g, 0, true)
    else
      var (o, g1) := Step(ops, g, cs[0]);
      var rest := Run(ops, g1, cs[1..]);
      GrowsTransitive(g, g1, rest.graph);
      Outcome((if o.Some? then [o.value] else []) + rest.values, rest.graph, rest.done + 1, rest.panicked)
  }

  /** A run that carries out its first call ends where the run of the remaining calls ends, one call later. */
  lemma RunFirst<V>(ops: Ops<V>, g: Graph<V>, cs: seq<Call<V>>)
    requires WellFormed(g) && cs != [] && Allowed(g, cs[0])
    ensures var rest := Run(ops, Step(ops, g, cs[0]).1, cs[1..]);
      && Run(ops, g, cs).graph == rest.graph
      && Run(ops, g, cs).done == rest.done + 1
      && Run(ops, g, cs).panicked == rest.panicked
      && Run(ops, g, cs).values ==
        (if Step(ops, g, cs[0]).0.Some? then [Step(ops, g, cs[0]).0.value] else []) + rest.values
  {
  }

  /** The step of `RunStops`: a stop in the rest of the run is a stop of the whole run. */
  lemma RunStopsLater<V>(ops: Ops<V>, g: Graph<V>, cs: seq<Call<V>>, rest: Outcome<V>)
    requires cs != [] && (rest.panicked ==> rest.done < |cs| - 1)
    requires rest.panicked ==> !Allowed(rest.graph, cs[1..][rest.done])
    ensures rest.panicked ==> !Allowed(rest.graph, cs[rest.done + 1])
  {
    if rest.panicked {
      assert cs[1..][rest.done] == cs[rest.done + 1];
    }
  }

  /** A run that stops does so on a call refused by the graph it has reached. */
  lemma {:induction false} RunStops<V>(ops: Ops<V>, g: Graph<V>, cs: seq<Call<V>>)
    requires WellFormed(g)
    ensures Run(ops, g, cs).panicked ==> !Allowed(Run(ops, g, cs).graph, cs[Run(ops, g, cs).done])
    decreases |cs|
  {
    if cs != [] && Allowed(g, cs[0]) {
      var rest := Run(ops, Step(ops, g, cs[0]).1, cs[1..]);
      RunStops(ops, Step(ops, g, cs[0]).1, cs[1..]);
      RunFirst(ops, g, cs);
      RunStopsLater(ops, g, cs, rest);
    }
  }

  /**
   * A run carries out a prefix of its calls: running only the calls it
   * carried out observes the same values and leaves the same graph, without
   * a stop.
   */
  lemma {:induction false} RunPrefix<V>(ops: Ops<V>, g: Graph<V>, cs: seq<Call<V>>)
    requires WellFormed(g)
    ensures Run(ops, g, cs[..Run(ops, g, cs).done]) ==
      Outcome(Run(ops, g, cs).values, Run(ops, g, cs).graph, Run(ops, g, cs).done, false)
    decreases |cs|
  {
    if cs != [] && Allowed(g, cs[0]) {
      var g1 := Step(ops, g, cs[0]).1;
      var rest := Run(ops, g1, cs[1..]);
      RunPrefix(ops, g1, cs[1..]);
      RunFirst(ops, g, cs);
      var p := cs[..rest.done + 1];
      assert p != [] && p[0] == cs[0] && p[1..] == cs[1..][..rest.done];
      RunFirst(ops, g, p);
    } else {
      assert cs[..Run(ops, g, cs).done] == [];
    }
  }

  /**
   * A run that panics does so on the first refused call: replaying the calls
   * it carried out, the next call is refused by the graph they leave.
   */
  lemma RunStopsOnRefused<V>(ops: Ops<V>, g: Graph<V>, cs: seq<Call<V>>)
    requires WellFormed(g)
    ensures Run(ops, g, cs).panicked ==>
      !Allowed(Run(ops, g, cs[..Run(ops, g, cs).done]).graph, cs[Run(ops, g, cs).done])
  {
    RunStops(ops, g, cs);
    RunPrefix(ops, g, cs);
  }

  /** Runs the calls in order against the cache-free reference. */
  function ReferenceRun<V>(ops: Ops<V>, g: Graph<V>, cs: seq<Call<V>>): (r: Outcome<V>)
    requires WellFormed(g)
    ensures WellFormed(r.graph) && Grows(g, r.graph)
    ensures |r.values| <= r.done <= |cs|
    ensures !r.panicked <==> r.done == |cs|
    decreases |cs|
  {
    if cs == [] then
      Outcome([], g, 0, false)
    else if !Allowed(g, cs[0]) then
      Outcome([], g, 0, true)
    else
      var (o, g1) := ReferenceStep(ops, g, cs[0]);
      var rest := ReferenceRun(ops, g1, cs[1..]);
      GrowsTransitive(g, g1, rest.graph);
      Outcome((if o.Some? then [o.value] else []) + rest.values, rest.graph, rest.done + 1, rest.panicked)
  }

  /** `set` on the caching graph and a plain write on the reference stay in step. */
  lemma SetMatchesWrite<V>(ops: Ops<V>, s: Graph<V>, t: Graph<V>, i: nat, v: V)
    requires WellFormed(s) && SameWiring(s, t) && Consistent(ops, s) && i < |s| && s[i].Input?
    ensures WellFormed(t) && t[i].Input?
    ensures SameWiring(Set(s, i, v), Write(t, i, v)) && Consistent(ops, Set(s, i, v))
  {
    SameWiringSameEdges(s, t);
    SetKeepsConsistent(ops, s, i, v);
    var r, u := Set(s, i, v), Write(t, i, v);
    assert Wiring(t[i]) == Wiring(s[i]);
    forall j | 0 <= j < |s| && j != i
      ensures Wiring(r[j]) == Wiring(u[j]) && r[j].dependents == u[j].dependents
    {
      assert Wiring(t[j]) == Wiring(s[j]) && t[j].dependents == s[j].dependents;
    }
  }

  /** `compute` on the caching graph yields the reference's fresh value. */
  lemma ComputeMatchesFresh<V>(ops: Ops<V>, s: Graph<V>, t: Graph<V>, i: nat)
    requires WellFormed(s) && SameWiring(s, t) && Consistent(ops, s) && i < |s|
    ensures WellFormed(t)
    ensures Compute(ops, s, i).0 == Fresh(ops, t, i)
    ensures SameWiring(Compute(ops, s, i).1, t) && Consistent(ops, Compute(ops, s, i).1)
  {
    SameWiringSameEdges(s, t);
    FreshSameWiring(ops, s, t);
    ComputeIsFresh(ops, s, i);
  }

  /** A constructor applied to both graphs keeps them in step. */
  lemma AttachMatches<V>(ops: Ops<V>, s: Graph<V>, t: Graph<V>, n: Node<V>)
    requires WellFormed(s) && SameWiring(s, t) && Consistent(ops, s) && NewNode(n, |s|)
    ensures WellFormed(t)
    ensures SameWiring(Attach(s, n).0, Attach(t, n).0) && Consistent(ops, Attach(s, n).0)
  {
    SameWiringSameEdges(s, t);
    AttachKeepsConsistent(ops, s, n);
    var h, k := Attach(s, n).0, Attach(t, n).0;
    forall j | 0 <= j < |s|
      ensures Wiring(h[j]) == Wiring(k[j]) && h[j].dependents == k[j].dependents
    {
      assert Wiring(t[j]) == Wiring(s[j]) && t[j].dependents == s[j].dependents;
    }
  }

  /**
   * One call keeps the caching graph and the reference in step: they agree
   * on everything but memo slots, the caching graph's slots stay truthful,
   * and both yield the same value.
   */
  lemma StepMatchesReference<V>(ops: Ops<V>, s: Graph<V>, t: Graph<V>, c: Call<V>)
    requires WellFormed(s) && SameWiring(s, t) && Consistent(ops, s) && Allowed(s, c)
    ensures WellFormed(t) && Allowed(t, c)
    ensures Step(ops, s, c).0 == ReferenceStep(ops, t, c).0
    ensures SameWiring(Step(ops, s, c).1, ReferenceStep(ops, t, c).1)
    ensures Consistent(ops, Step(ops, s, c).1)
  {
    SameWiringSameEdges(s, t);
    if c.SetValue? {
      assert Wiring(t[c.node]) == Wiring(s[c.node]);
      SetMatchesWrite(ops, s, t, c.node, c.value);
    } else if c.Evaluate? {
      ComputeMatchesFresh(ops, s, t, c.node);
    } else {
      var n := Built(c);
      assert Construct(s, c) == Attach(s, n) && Construct(t, c) == Attach(t, n);
      AttachMatches(ops, s, t, n);
    }
  }

  /**
   * Memoisation is invisible: from a graph whose slots are truthful, any
   * sequence of calls observes exactly the values that cache-free
   * evaluation gives, and stops at the same refused call. Both leave graphs
   * that differ in memo slots only, and the caching one's slots are still
   * truthful. `t` may be `s` itself or `s` with every slot emptied (the
   * graph built afresh).
   */
  lemma {:induction false} RunMatchesReference<V>(ops: Ops<V>, s: Graph<V>, t: Graph<V>, cs: seq<Call<V>>)
    requires WellFormed(s) && SameWiring(s, t) && Consistent(ops, s)
    ensures WellFormed(t)
    ensures Run(ops, s, cs).values == ReferenceRun(ops, t, cs).values
    ensures Run(ops, s, cs).done == ReferenceRun(ops, t, cs).done
    ensures Run(ops, s, cs).panicked == ReferenceRun(ops, t, cs).panicked
    ensures SameWiring(Run(ops, s, cs).graph, ReferenceRun(ops, t, cs).graph)
    ensures Consistent(ops, Run(ops, s, cs).graph)
    decreases |cs|
  {
    SameWiringSameEdges(s, t);
    if cs != [] && Allowed(s, cs[0]) {
      StepMatchesReference(ops, s, t, cs[0]);
      RunMatchesReference(ops, Step(ops, s, cs[0]).1, ReferenceStep(ops, t, cs[0]).1, cs[1..]);
    } else if cs != [] {
      assert !Allowed(t, cs[0]);
    }
  }

  /**
   * Starting from no nodes at all, every session observes the values of
   * cache-free evaluation and stops at the same refused call as the reference.
   */
  lemma RunFromEmpty<V>(ops: Ops<V>, cs: seq<Call<V>>)
    ensures WellFormed<V>([])
    ensures Run(ops, [], cs).values == ReferenceRun(ops, [], cs).values
    ensures Run(ops, [], cs).done == ReferenceRun(ops, [], cs).done
    ensures Run(ops, [], cs).panicked == ReferenceRun(ops, [], cs).panicked
  {
    assert OperandLists<V>([]) == [] && DependentLists<V>([]) == [];
    RunMatchesReference(ops, [], [], cs);
  }
}

=== FILE: shape.dfy ===
/**
 * The shape of the graph as two families of index lists: `w[j]` holds the
 * operands of node j (edges pointing backward, toward the inputs) and
 * `d[j]` its dependents (edges pointing forward, toward the consumers).
 * Building a node only after its operands exist makes operand edges point
 * to smaller indices, which is what keeps the graph acyclic.
 */
module Shape {

  type Edges = seq<seq<nat>>

  /** Every operand of node j is an older node. */
  ghost predicate PointBackward(w: Edges) {
    forall j, k :: 0 <= j < |w| && 0 <= k < |w[j]| ==> w[j][k] < j
  }

  /** Every dependent of node j is a newer node of the graph. */
  ghost predicate PointForward(d: Edges) {
    forall j, k :: 0 <= j < |d| && 0 <= k < |d[j]| ==> j < d[j][k] < |d|
  }

  /** `k` copies of `d`. */
  function Repeat(d: nat, k: nat): (r: seq<nat>)
    ensures |r| == k
    ensures forall e :: e in r ==> e == d
  {
    if k == 0 then [] else [d] + Repeat(d, k - 1)
  }

  /**
   * The dependents list node j has once nodes 0 .. upto-1 are built: each
   * consumer in creation order, once for every operand slot that names j.
   */
  ghost function Consumers(w: Edges, j: nat, upto: nat): seq<nat>
    requires upto <= |w|
  {
    if upto == 0 then [] else Consumers(w, j, upto - 1) + Repeat(upto - 1, multiset(w[upto - 1])[j])
  }

  /** Operands come first, and the dependents lists are exactly what construction registers. */
  ghost predicate Wf(w: Edges, d: Edges) {
    && |w| == |d|
    && PointBackward(w)
    && PointForward(d)
    && forall j :: 0 <= j < |d| ==> d[j] == Consumers(w, j, |w|)
  }

  /** Node j reads node i, directly or through a chain of operands (a node reads itself). */
  ghost predicate ReadsFrom(w: Edges, j: nat, i: nat)
    requires PointBackward(w) && j < |w|
    decreases j
  {
    j == i || exists k :: 0 <= k < |w[j]| && ReadsFrom(w, w[j][k], i)
  }

  /** Node j is reached from node i by following dependents edges (a node reaches itself). */
  ghost predicate Reaches(d: Edges, i: nat, j: nat)
    requires PointForward(d) && i < |d|
    decreases |d| - i
  {
    i == j || exists k :: 0 <= k < |d[i]| && Reaches(d, d[i][k], j)
  }

  /** The entries of `Consumers` are exactly the nodes below `upto` that have `j` as an operand. */
  lemma {:induction false} ConsumersMembers(w: Edges, j: nat, upto: nat)
    requires upto <= |w|
    ensures forall e: nat :: e in Consumers(w, j, upto) <==> e < upto && j in w[e]
  {
    if upto > 0 {
      ConsumersMembers(w, j, upto - 1);
      var last := Repeat(upto - 1, multiset(w[upto - 1])[j]);
      assert Consumers(w, j, upto) == Consumers(w, j, upto - 1) + last;
      assert j in w[upto - 1] <==> upto - 1 in last by {
        assert j in w[upto - 1] <==> j in multiset(w[upto - 1]);
        if j in w[upto - 1] {
          assert last[0] == upto - 1;
        }
      }
    }
  }

  /** `Consumers` only looks at the operand lists below `upto`. */
  lemma {:induction false} ConsumersPrefix(w: Edges, w': Edges, j: nat, upto: nat)
    requires upto <= |w| && upto <= |w'|
    requires w[..upto] == w'[..upto]
    ensures Consumers(w, j, upto) == Consumers(w', j, upto)
  {
    if upto > 0 {
      assert w[..upto - 1] == w'[..upto - 1] by {
        assert w[..upto - 1] == w[..upto][..upto - 1];
        assert w'[..upto - 1] == w'[..upto][..upto - 1];
      }
      assert w[upto - 1] == w[..upto][upto - 1] == w'[..upto][upto - 1] == w'[upto - 1];
      ConsumersPrefix(w, w', j, upto - 1);
    }
  }

  /** Exact dependents lists of a backward-pointing operand structure point forward. */
  lemma ExactDependentsPointForward(w: Edges, d: Edges)
    requires |w| == |d| && PointBackward(w)
    requires forall j :: 0 <= j < |d| ==> d[j] == Consumers(w, j, |w|)
    ensures PointForward(d)
  {
    forall j, k | 0 <= j < |d| && 0 <= k < |d[j]|
      ensures j < d[j][k] < |d|
    {
      ConsumersMembers(w, j, |w|);
      var e := d[j][k];
      assert e in Consumers(w, j, |w|);
      var m :| 0 <= m < |w[e]| && w[e][m] == j;
    }
  }

  /** Reading is transitive. */
  lemma {:induction false} ReadsFromTransitive(w: Edges, j: nat, m: nat, i: nat)
    requires PointBackward(w) && j < |w| && m < |w|
    requires ReadsFrom(w, j, m) && ReadsFrom(w, m, i)
    ensures ReadsFrom(w, j, i)
    decreases j
  {
    if j != m {
      var k :| 0 <= k < |w[j]| && ReadsFrom(w, w[j][k], m);
      ReadsFromTransitive(w, w[j][k], m, i);
    }
  }

  /** A path along dependents edges can be extended by one more dependents edge. */
  lemma {:induction false} ReachesExtend(d: Edges, i: nat, m: nat, k: nat)
    requires PointForward(d) && i < |d| && m < |d| && k < |d[m]|
    requires Reaches(d, i, m)
    ensures Reaches(d, i, d[m][k])
    decreases |d| - i
  {
    if i == m {
      assert Reaches(d, d[m][k], d[m][k]);
    } else {
      var l :| 0 <= l < |d[i]| && Reaches(d, d[i][l], m);
      ReachesExtend(d, d[i][l], m, k);
    }
  }

  /** Whatever the dependents edges reach from i reads i. */
  lemma {:induction false} ReachesOnlyReaders(w: Edges, d: Edges, i: nat, j: nat)
    requires Wf(w, d) && i < |w| && j < |w|
    requires Reaches(d, i, j)
    ensures ReadsFrom(w, j, i)
    decreases |d| - i
  {
    if i != j {
      var k :| 0 <= k < |d[i]| && Reaches(d, d[i][k], j);
      var m := d[i][k];
      ReachesOnlyReaders(w, d, m, j);
      ConsumersMembers(w, i, |w|);
      assert m in Consumers(w, i, |w|);
      var l :| 0 <= l < |w[m]| && w[m][l] == i;
      assert ReadsFrom(w, w[m][l], i);
      assert ReadsFrom(w, m, i);
      ReadsFromTransitive(w, j, m, i);
    }
  }

  /** Every node that reads i is reached from i along dependents edges. */
  lemma {:induction false} ReadersAreReached(w: Edges, d: Edges, i: nat, j: nat)
    requires Wf(w, d) && i < |w| && j < |w|
    requires ReadsFrom(w, j, i)
    ensures Reaches(d, i, j)
    decreases j
  {
    if j != i {
      var k :| 0 <= k < |w[j]| && ReadsFrom(w, w[j][k], i);
      var m := w[j][k];
      ReadersAreReached(w, d, i, m);
      ConsumersMembers(w, m, |w|);
      assert j in d[m];
      var l :| 0 <= l < |d[m]| && d[m][l] == j;
      ReachesExtend(d, i, m, l);
    }
  }

  /** The forward closure along dependents is exactly the set of readers. */
  lemma ReachesIffReadsFrom(w: Edges, d: Edges, i: nat, j: nat)
    requires Wf(w, d) && i < |w| && j < |w|
    ensures Reaches(d, i, j) <==> ReadsFrom(w, j, i)
  {
    if Reaches(d, i, j) {
      ReachesOnlyReaders(w, d, i, j);
    }
    if ReadsFrom(w, j, i) {
      ReadersAreReached(w, d, i, j);
    }
  }

  /**
   * Appending a node whose operands are older nodes, and registering it
   * with each of them once per operand slot, keeps the structure well formed.
   */
  lemma WfAppend(w: Edges, d: Edges, w': Edges, d': Edges)
    requires Wf(w, d)
    requires |w'| == |d'| == |w| + 1 && w'[..|w|] == w
    requires forall o :: o in w'[|w|] ==> o < |w|
    requires d'[|w|] == []
    requires forall j :: 0 <= j < |w| ==> d'[j] == d[j] + Repeat(|w|, multiset(w'[|w|])[j])
    ensures Wf(w', d')
  {
    AppendPointsBackward(w, w');
    forall j | 0 <= j < |d'|
      ensures d'[j] == Consumers(w', j, |w'|)
    {
      if j < |w| {
        AppendConsumersOld(w, w', j);
      } else {
        AppendConsumersNew(w', j);
      }
    }
    ExactDependentsPointForward(w', d');
  }

  lemma AppendPointsBackward(w: Edges, w': Edges)
    requires PointBackward(w)
    requires |w'| == |w| + 1 && w'[..|w|] == w
    requires forall o :: o in w'[|w|] ==> o < |w|
    ensures PointBackward(w')
  {
    forall j, k | 0 <= j < |w'| && 0 <= k < |w'[j]|
      ensures w'[j][k] < j
    {
      if j < |w| {
        assert w'[j] == w'[..|w|][j] == w[j];
      } else {
        assert w'[j][k] in w'[|w|];
      }
    }
  }

  lemma AppendConsumersOld(w: Edges, w': Edges, j: nat)
    requires |w'| == |w| + 1 && w'[..|w|] == w && j < |w|
    ensures Consumers(w', j, |w'|) == Consumers(w, j, |w|) + Repeat(|w|, multiset(w'[|w|])[j])
  {
    ConsumersPrefix(w', w, j, |w|);
    assert w'[..|w|] == w[..|w|];
  }

  lemma AppendConsumersNew(w': Edges, j: nat)
    requires PointBackward(w') && j + 1 == |w'|
    ensures Consumers(w', j, |w'|) == []
  {
    forall e: nat | e < |w'|
      ensures j !in w'[e]
    {
      assert forall k :: 0 <= k < |w'[e]| ==> w'[e][k] < e <= j;
    }
    ConsumersNone(w', j, |w'|);
  }

  /** A node nobody reads has no consumers. */
  lemma {:induction false} ConsumersNone(w: Edges, j: nat, upto: nat)
    requires upto <= |w|
    requires forall e: nat :: e < upto ==> j !in w[e]
    ensures Consumers(w, j, upto) == []
  {
    if upto > 0 {
      ConsumersNone(w, j, upto - 1);
      assert j !in multiset(w[upto - 1]);
    }
  }
}
